=== FILE: README.md ===
# Order aggregate of a food-delivery service, in Dafny

This project models the order core of a food-delivery back end (a NestJS
service written in TypeScript, persisted through Prisma):

- **Value objects.** `Quantity`, `Price`, `SpecialInstructions`,
  `DeliveryAddress` and `OrderStatus` check their invariant when they are built.
- **The aggregate.** An `OrderItem` is one order line, with a line total and
  two in-place updates. An `Order` can be confirmed and can be rebuilt from a
  stored record (`fromPrisma`).
- **The repository.** It saves, finds, re-statuses and deletes orders. It is
  modelled over an abstract two-table store: order rows with unique ids, and
  item rows linked to their order by its id.
- **Five use-cases.** Create, find by id, find by customer, update status and
  delete.

The model is functional. Every value object is an immutable datatype with a
`Valid()` predicate and a checked constructor. A check that throws in the
source returns a `Result` here, and the error kinds are the `Error`
constructors `Validation`, `BusinessRuleViolation` and `NotFound`. An
operation that changes the store returns a `Step`: the store after the call
together with the call's result. A read returns a `Result` only, so it cannot
change the store.

Modules follow the source layout:

- `Results`: `Option`, `Result`, `Error`, `Step`, and `Traverse`, which is an
  array `map` whose callback may throw.
- `QuantityVO`, `PriceVO`, `InstructionsVO`, `AddressVO`, `StatusVO`: the value objects.
- `OrderItemEntity`, `OrderEntity`: the aggregate.
- `Records`: the persisted shapes. `OrderData` is what a save writes;
  `OrderRecord` is what a read returns.
- `OrderTables`: the store's tables and row-level operations (lookup by
  primary key, upsert, column update, delete, filter).
- `PrismaOrderRepository`: the adapter's operations and the mapping in both
  directions.
- `CreateOrderUseCase`, `FindOrderByIdUseCase`, `FindOrdersByCustomerIdUseCase`,
  `UpdateOrderStatusUseCase`, `DeleteOrderUseCase`: one module per use-case.
- `OrderScenarios`: end-to-end behaviour on a concrete request.

The repository interface in `src/domain/interfaces/order.repository.ts:4-10`
appears in the result types of `PrismaOrderRepository`:

| operation | returns |
|---|---|
| `Save` | the reloaded `Order` |
| `FindById` | `Option<Order>`: absence is `Ok(None)`, not a failure |
| `FindByCustomerId` | a possibly empty `seq<Order>` |
| `UpdateStatus`, `Delete` | `()` |

Parameters replace what the source takes from the environment:

- `newId`: the generated uuid.
- `now`: the clock read when an `Order` is constructed.
- `insertedAt`: the creation time the store gives a newly inserted row.

The record round trip is not the identity. The save payload has no
creation time (`prisma-order.repository.ts:71-97`). So a save keeps the
stored `createdAt` of an existing row, and a new row gets the store's time.
The order a save returns carries that stored time, not the in-memory one.
Absent instructions also read back as the empty text (`order.entity.ts:38`).
See `Reloaded` and `ToPrismaRoundTrip`.

## Model

| member | source | states |
|---|---|---|
| Results.Traverse | src/domain/entities/order.entity.ts:33-40 | Mapping a throwing conversion over a list succeeds exactly when it succeeds on every element, keeps length and order, and otherwise fails with the error of the first failing element |
| QuantityVO.NewQuantity | src/domain/vo/quantity.vo.ts:1-5 | A quantity can be built exactly when the value is not negative (zero included); the built quantity holds the value unchanged; a negative value fails with "Quantity cannot be negative" |
| QuantityVO.QuantityRoundTrip | src/domain/vo/quantity.vo.ts:2 | Any valid quantity is rebuilt unchanged from the value it holds |
| PriceVO.NewPrice | src/domain/vo/price.vo.ts:1-8 | A price can be built exactly when the amount is not negative; the amount is kept, a given currency is kept unchecked, and an omitted currency becomes "mxn"; a negative amount fails with "Price cannot be negative" |
| PriceVO.PriceRoundTrip | src/domain/vo/price.vo.ts:3-4 | Any valid price is rebuilt unchanged from its amount and currency |
| InstructionsVO.NewSpecialInstructions | src/domain/vo/special-instructions.vo.ts:1-5 | Instructions can be built exactly when the text has at most 500 characters (the empty text and exactly 500 included), holding the text unchanged; longer text fails with the 500-character message |
| InstructionsVO.InstructionsRoundTrip | src/domain/vo/special-instructions.vo.ts:2 | Any valid instructions are rebuilt unchanged from their text |
| AddressVO.NewDeliveryAddress | src/domain/vo/delivery-address.vo.ts:1-11 | An address can be built exactly when street, city and postal code are all non-empty; on success all five fields are held unchanged; otherwise it fails with the required-fields message |
| AddressVO.NumberAndGpsUnchecked | src/domain/vo/delivery-address.vo.ts:5-9 | Whether an address can be built never depends on the house number or on the coordinates |
| AddressVO.AddressRoundTrip | src/domain/vo/delivery-address.vo.ts:3-7 | Any valid address is rebuilt unchanged from its five fields |
| StatusVO.FindMember | src/domain/vo/order-status.vo.ts:13 | The membership search over the enumeration's values finds a member whose string is the argument, and finds none exactly when no listed member has that string |
| StatusVO.NewOrderStatus | src/domain/vo/order-status.vo.ts:11-17 | A status can be built from a string exactly when it is one of the seven member strings, and then holds the member with that string; any other string fails with "Invalid order status: " followed by the string |
| StatusVO.SevenMembers | src/domain/vo/order-status.vo.ts:1-9 | The enumeration has exactly seven members, each listed once among the values the constructor searches |
| StatusVO.ValueInjective | src/domain/vo/order-status.vo.ts:1-9 | No two members share a Spanish string |
| StatusVO.StatusRoundTrip | src/domain/vo/order-status.vo.ts:12-15 | Building a status from any member's string succeeds and holds that same member |
| OrderItemEntity.BuildItem | src/domain/entities/order.entity.ts:34-39 | Assembling a line from raw fields succeeds exactly when quantity, price and instructions are valid, with a missing instruction read as empty; on success the line holds each field exactly and always carries instructions; the quantity error takes precedence over the price error; text over the limit, with quantity and price valid, fails with the instructions-too-long error |
| OrderItemEntity.GetTotal | src/domain/entities/order-item.entity.ts:13-15 | The line total has amount unit price times quantity and the unit price's currency, and is produced exactly when that product is not negative |
| OrderItemEntity.TotalOfValidItem | src/domain/entities/order-item.entity.ts:14 | The total of a valid line never fails and is itself a valid price |
| OrderItemEntity.ZeroQuantityTotal | src/domain/entities/order-item.entity.ts:14 | A line of quantity zero totals zero in its own currency |
| OrderItemEntity.UpdateQuantity | src/domain/entities/order-item.entity.ts:17-19 | A negative quantity fails and leaves the line unchanged; otherwise only the quantity changes, to the given value; validity is preserved |
| OrderItemEntity.UpdateInstructions | src/domain/entities/order-item.entity.ts:21-23 | Text over 500 characters fails and leaves the line unchanged; otherwise only the instructions change, to the given text; validity is preserved |
| OrderItemEntity.TotalAfterUpdateQuantity | src/domain/entities/order-item.entity.ts:13-19 | After a successful quantity update the line total is the unit price times the new quantity |
| OrderEntity.Confirm | src/domain/entities/order.entity.ts:19-21 | Confirming sets the status to confirmed from any status and leaves id, restaurant, customer, address, items and creation time unchanged |
| OrderEntity.ConfirmIdempotent | src/domain/entities/order.entity.ts:19-21 | Confirming twice is the same as confirming once |
| OrderEntity.ItemFromRow | src/domain/entities/order.entity.ts:34-39 | A stored item row rebuilds into a line exactly when it satisfies the line's invariants, and the line holds product, quantity, price and currency field for field, with null or empty instructions as the empty text; a failure is always a validation error |
| OrderEntity.FromPrisma | src/domain/entities/order.entity.ts:23-53 | A stored record rebuilds into an order exactly when its address, every item row and its status are valid; the order keeps id, restaurant, customer, creation time, address fields with coordinates unflattened, and the number and order of lines; a missing address field is reported before anything else, and a bad status after the lines; every failure is a validation error |
| OrderTables.FindRow | src/infrastructure/repositories/prisma-order.repository.ts:40-43 | The primary-key lookup finds a row exactly when the id is present, and the row it finds has that id |
| OrderTables.UpsertedRow | src/infrastructure/repositories/prisma-order.repository.ts:26-31 | The row an upsert leaves holds every payload column, and keeps the stored creation time when the id was present or takes the store's insert time when it was not |
| OrderTables.UpsertRow | src/infrastructure/repositories/prisma-order.repository.ts:26-29 | An upsert creates the row when the id is absent and overwrites it when present, leaves every other row as it was, and keeps ids unique |
| OrderTables.UpsertRowTwice | src/infrastructure/repositories/prisma-order.repository.ts:26-31 | Upserting the same payload a second time changes nothing |
| OrderTables.SetStatus | src/infrastructure/repositories/prisma-order.repository.ts:58-61 | A status write changes only the status column of the addressed row and no other row, and keeps ids unique |
| OrderTables.RemoveRow | src/infrastructure/repositories/prisma-order.repository.ts:65-67 | A row delete leaves no row with that id, leaves every other row as it was, and keeps ids unique |
| OrderTables.RowsOfCustomer | src/infrastructure/repositories/prisma-order.repository.ts:49-52 | The customer filter returns exactly the stored rows whose customer id matches, its ids are among the table's, and a table with unique ids gives a result with unique ids |
| OrderTables.RowsOfCustomerCount | src/infrastructure/repositories/prisma-order.repository.ts:49-52 | Each of the customer's rows is returned exactly as often as the table holds it, and no other row is returned |
| OrderTables.RowsOfCustomerAppend | src/infrastructure/repositories/prisma-order.repository.ts:49-52 | Filtering a table split in two gives the first part's rows followed by the second part's: the filter keeps the table's order |
| OrderTables.RowsOfCustomerSingle | src/infrastructure/repositories/prisma-order.repository.ts:50 | A single row is kept exactly when its customer id is the requested one |
| OrderTables.ItemsOfAfterDelete | src/infrastructure/repositories/prisma-order.repository.ts:21-23 | Deleting the items of one order leaves it none and leaves every other order exactly the items it had |
| OrderTables.ReplaceItems | src/infrastructure/repositories/prisma-order.repository.ts:21-31 | After deleting an order's items and creating the new ones, the order has exactly the new rows with no leftover old ones, and every other order keeps its items |
| OrderTables.ReplaceItemsTwice | src/infrastructure/repositories/prisma-order.repository.ts:20-30 | Replacing an order's items twice with the same rows is the same as once: rows are never doubled |
| PrismaOrderRepository.ItemToRow | src/infrastructure/repositories/prisma-order.repository.ts:88-94 | A line is written field for field, with instructions present exactly when the line has them and absent ones written as null |
| PrismaOrderRepository.ToPrisma | src/infrastructure/repositories/prisma-order.repository.ts:71-85 | The payload carries the ids, the status as its enumeration string, the address with the coordinates flattened into latitude and longitude, and one item row per line in order |
| PrismaOrderRepository.ReloadedWithInstructions | src/domain/entities/order.entity.ts:38 | An order whose lines all carry instructions is unchanged by the reload normalisation |
| PrismaOrderRepository.ToPrismaRoundTrip | src/infrastructure/repositories/prisma-order.repository.ts:71-97 | Rebuilding what a valid order writes gives the order back field for field, except that absent instructions return as the empty text and the creation time is the stored one |
| PrismaOrderRepository.FromPrismaRoundTrip | src/domain/entities/order.entity.ts:23-53 | Rebuilding a valid record and writing the result gives back the record's columns, with null instructions written as the empty text, and keeps its creation time |
| PrismaOrderRepository.Save | src/infrastructure/repositories/prisma-order.repository.ts:16-37 | After a save the order's stored items are exactly its lines mapped, the row holds its payload (created or overwritten), other orders' rows and items are unchanged, ids stay unique, and a valid order is returned as reloaded |
| PrismaOrderRepository.FindById | src/infrastructure/repositories/prisma-order.repository.ts:39-46 | A missing id gives absence rather than a failure; for a present id the lookup succeeds exactly when that id's own stored record rebuilds, and then gives the rebuilt order; on a valid store the lookup never fails; a failure is always the validation error of rebuilding the record |
| PrismaOrderRepository.FindByCustomerId | src/infrastructure/repositories/prisma-order.repository.ts:48-55 | Succeeds exactly when every stored record of the customer rebuilds, whatever other customers' records hold; then returns one order per stored row of the customer, in storage order, each rebuilt from that row and having that customer id; on a valid store it never fails; a failure is always a validation error |
| PrismaOrderRepository.CustomerRecordsValidRows | src/infrastructure/repositories/prisma-order.repository.ts:49-54 | The customer's stored records are all valid exactly when every row the customer filter returns holds a valid record, so only the customer's own rows decide whether the listing succeeds |
| PrismaOrderRepository.UpdateStatus | src/infrastructure/repositories/prisma-order.repository.ts:57-62 | Succeeds exactly when the row exists, writes only its status column with the member's string, leaves other rows and all items unchanged, and on a missing row fails with the store unchanged |
| PrismaOrderRepository.Delete | src/infrastructure/repositories/prisma-order.repository.ts:64-68 | Succeeds exactly when the row exists; afterwards the id is absent, and every other order's row and items are unchanged; on a missing row it fails with the store unchanged |
| PrismaOrderRepository.SaveIdempotent | src/infrastructure/repositories/prisma-order.repository.ts:19-34 | Saving the same order twice leaves the same store and returns the same order as saving it once |
| PrismaOrderRepository.SaveThenFindById | src/domain/interfaces/order.repository.ts:5-6 | A lookup right after saving a valid order returns the order that the save returned |
| PrismaOrderRepository.SavePreservesDbValid | src/infrastructure/repositories/prisma-order.repository.ts:16-37 | Saving a valid order keeps every stored record loadable and ids unique |
| PrismaOrderRepository.FindByCustomerIdCovers | src/infrastructure/repositories/prisma-order.repository.ts:48-54 | Every stored order of the customer is among the orders found for that customer |
| PrismaOrderRepository.UpdateStatusPreservesDbValid | src/infrastructure/repositories/prisma-order.repository.ts:57-62 | A status write keeps every stored record loadable |
| PrismaOrderRepository.FromPrismaWithStatus | src/domain/entities/order.entity.ts:42 | A record whose status column was overwritten with a member's string rebuilds into the old order with only the status replaced |
| PrismaOrderRepository.UpdateStatusThenFindById | src/infrastructure/repositories/prisma-order.repository.ts:58-61 | After a status write a lookup returns the previous order with only its status replaced |
| PrismaOrderRepository.DeletePreservesDbValid | src/infrastructure/repositories/prisma-order.repository.ts:64-68 | Deleting keeps every stored record loadable |
| PrismaOrderRepository.DeleteThenFindById | src/domain/interfaces/order.repository.ts:6-9 | After a delete a lookup of that id returns absence |
| CreateOrderUseCase.ItemFromInput | src/application/use-cases/create-order.uc.ts:31-41 | A requested line becomes a line exactly when its values are valid, holding product, quantity, amount and currency (default "mxn") exactly, with missing or empty instructions as the empty text; a failure is always a validation error |
| CreateOrderUseCase.BuildOrder | src/application/use-cases/create-order.uc.ts:20-43 | The new order is assembled exactly when every requested value is valid, with the supplied id and time, the requested restaurant and customer, status confirmed, the address fields, and one matching line per requested line in order; a bad address is reported first; every failure is a validation error |
| CreateOrderUseCase.Execute | src/application/use-cases/create-order.uc.ts:19-46 | An invalid request fails and leaves the store unchanged; a valid one returns a confirmed order with the new id, the requested ids and lines, leaves its id stored with exactly those lines and with the requested customer, restaurant and confirmed status, returns what the save returned, carries the store's creation time, is found again by id as exactly the returned order, leaves every other order alone, and keeps the store valid; an invalid request always fails with a validation error |
| FindOrderByIdUseCase.Execute | src/application/use-cases/find-order-by-id.uc.ts:11-15 | A missing order is a business-rule violation naming the id; a repository failure is passed on; any other failure implies one of those two; a returned order is exactly the one the repository found; for a stored id it succeeds exactly when that order's own record rebuilds; on a valid store it succeeds exactly when the id is stored |
| FindOrdersByCustomerIdUseCase.Execute | src/application/use-cases/find-order-by-customer.uc.ts:11-13 | Succeeds exactly when every stored record of the customer rebuilds, so other customers' records never make it fail; on a valid store it never fails; it returns one order per stored row of the customer, each the reload of that row in storage order, and every order has the requested customer id; a failure is always a validation error |
| FindOrdersByCustomerIdUseCase.NoOrdersIsEmptySuccess | src/application/use-cases/find-order-by-customer.uc.ts:12 | A customer with no stored orders gets an empty list, not an error, whatever the other customers' rows hold |
| UpdateOrderStatusUseCase.Execute | src/application/use-cases/update-order-status.uc.ts:11-13 | The use-case is exactly the repository's status write: it adds no existence check of its own, so a missing order fails only with the store's not-found error, leaving the store unchanged |
| UpdateOrderStatusUseCase.NoTransitionGuard | src/application/use-cases/update-order-status.uc.ts:11-13 | Whatever the current status, an update to any status succeeds and a later lookup shows the order with only its status replaced |
| UpdateOrderStatusUseCase.DeliveredBackToReceived | src/application/use-cases/update-order-status.uc.ts:12 | An order whose stored status is delivered is found as delivered, and after a status update to received it is found as received |
| DeleteOrderUseCase.Execute | src/application/use-cases/delete-order.uc.ts:12-18 | A missing order is a business-rule violation naming the id, with no delete and the store unchanged; a stored record that does not rebuild makes the load fail, and that failure is passed on with the store unchanged; it succeeds exactly when the lookup finds the order, and then the order is deleted, a later lookup finds nothing, other orders are unaffected, and the store stays valid |
| DeleteOrderUseCase.DeleteOnValidStore | src/application/use-cases/delete-order.uc.ts:12-18 | On a store whose every record loads, the delete succeeds exactly when the order is stored |
| OrderScenarios.CreateThenFind | src/application/use-cases/create-order.uc.ts:19-46 | Creating two units of "p1" at 10 mxn gives a confirmed order whose line totals 20 mxn with empty instructions, and a lookup by the new id returns the same order |

## Left out

- Controllers, data-transfer objects and module wiring are left out: they are transport and dependency-injection code. This includes the stricter positive-number checks of the request classes; the domain's non-negative rule is modelled instead.
- The business-rule exception class is represented only by the `BusinessRuleViolation` error constructor.
- Prisma mechanics are left out: connecting, the internals of `$transaction`, `include` and logging. A save is one atomic step over the store, and concurrent saves are not modelled.
- Store failures other than a missing row are not modelled: connectivity problems and constraint violations.
- JavaScript numbers are not modelled exactly. Quantities and house numbers are integers. Amounts and coordinates are exact reals, so the line total makes no floating-point rounding claim. NaN, infinities and fractional quantities are not modelled.
- Text length is counted in characters, not in UTF-16 code units. A character outside the Basic Multilingual Plane counts once here but twice in the source.
- Required text fields are never null or undefined here. The source's truthiness check also rejects those, and a stored null currency or status is not modelled either.
- uuid generation and the clock are parameters (`newId`, `now`, `insertedAt`). The store's schema is not part of this model. A new row is assumed to get the store's insert time as its creation time.
- The order constructor has no member of its own: it is the `Order` datatype constructor, which checks nothing beyond its components.
- `CreateOrderUseCase.BuildOrder` uses the confirmed member directly. Building a status from an enumeration member cannot fail (`StatusVO.StatusRoundTrip`).
- Delete: states nothing about the deleted order's own item rows, because removing them depends on the store's relational schema. The model removes them, as a cascade would. No lookup can observe them either way, since a later save of that id deletes them first.
- FindByCustomerId: the order of the result is the order of the model's table. The source's query does not fix an order.
- PrismaOrderRepository.Save: the lines of a returned or found order are in the order their rows were written, because the model reads an order's item rows in table order and appends new rows. The source loads items with `include: { items: true }` and no `orderBy` (`prisma-order.repository.ts:30`, `:42`, `:51`), so the store does not fix that order. The same assumption holds for `FindById`, `FindByCustomerId`, `SaveThenFindById` and `CreateOrderUseCase.Execute`.

=== FILE: create_order.dfy ===
/** Creating an order from a request: every value is validated while the
    aggregate is assembled, the status is always confirmed, and the order
    is saved only if assembly succeeded. */
module CreateOrderUseCase {
  import opened Results
  import opened QuantityVO
  import opened PriceVO
  import opened InstructionsVO
  import opened AddressVO
  import opened StatusVO
  import opened OrderItemEntity
  import opened Records
  import opened OrderEntity
  import opened OrderTables
  import opened PrismaOrderRepository

  datatype AddressInput = AddressInput(
    street: string,
    number: int,
    city: string,
    postalCode: string,
    latitude: real,
    longitude: real)

  /** A requested price; the currency may be left out. */
  datatype PriceInput = PriceInput(amount: real, currency: Option<string>)

  datatype ItemInput = ItemInput(
    productId: string,
    quantity: int,
    price: PriceInput,
    specialInstructions: Option<string>)

  /** The request. It carries no status: a new order is always confirmed. */
  datatype CreateOrderInput = CreateOrderInput(
    customerId: string,
    restaurantId: string,
    deliveryAddress: AddressInput,
    items: seq<ItemInput>)

  predicate AddressInputValid(a: AddressInput) {
    AddressFieldsPresent(a.street, a.city, a.postalCode)
  }

  predicate ItemInputValid(item: ItemInput) {
    LineFieldsValid(item.quantity, item.price.amount, item.specialInstructions)
  }

  /** Every value in the request satisfies its value object's invariant. */
  predicate InputValid(input: CreateOrderInput) {
    && AddressInputValid(input.deliveryAddress)
    && forall i :: 0 <= i < |input.items| ==> ItemInputValid(input.items[i])
  }

  /** `item` holds exactly what the request asked for: missing or empty
      instructions become the empty text, a missing currency the default. */
  predicate ItemMatchesInput(item: OrderItem, input: ItemInput) {
    && item.productId == input.productId
    && item.quantity == Quantity(input.quantity)
    && item.price == Price(input.price.amount, input.price.currency.GetOr(DefaultCurrency))
    && item.specialInstructions == Some(SpecialInstructions(input.specialInstructions.GetOr("")))
  }

  function ItemFromInput(item: ItemInput): (r: Result<OrderItem>)
    ensures r.Ok? <==> ItemInputValid(item)
    ensures r.Err? ==> r.error.Validation?
    ensures r.Ok? ==> ItemMatchesInput(r.value, item)
  {
    BuildItem(item.productId, item.quantity, item.price.amount, item.price.currency, item.specialInstructions)
  }

  /** Assembles the new order with identity `newId` and creation time `now`,
      validating the address first and then the lines in order. */
  function BuildOrder(input: CreateOrderInput, newId: string, now: Timestamp): (r: Result<Order>)
    ensures r.Ok? <==> InputValid(input)
    ensures r.Ok? ==> r.value.Valid()
    ensures r.Ok? ==> && r.value.id == newId && r.value.restaurantId == input.restaurantId
                      && r.value.customerId == input.customerId && r.value.createdAt == now
                      && r.value.status == OrderStatus(Confirmed)
    ensures r.Ok? ==> r.value.deliveryAddress == DeliveryAddress(
                        input.deliveryAddress.street, input.deliveryAddress.city, input.deliveryAddress.number,
                        input.deliveryAddress.postalCode,
                        GpsCoordinates(input.deliveryAddress.latitude, input.deliveryAddress.longitude))
    ensures r.Ok? ==> && |r.value.items| == |input.items|
                      && forall i :: 0 <= i < |input.items| ==> ItemMatchesInput(r.value.items[i], input.items[i])
    ensures !AddressInputValid(input.deliveryAddress) ==> r == Err(Validation(AddressRequired))
    ensures r.Err? ==> r.error.Validation?
  {
    var a := input.deliveryAddress;
    var address :- NewDeliveryAddress(a.street, a.city, a.number, a.postalCode, GpsCoordinates(a.latitude, a.longitude));
    var items :- Traverse(input.items, ItemFromInput);
    Ok(Order(newId, input.restaurantId, input.customerId, address, items, OrderStatus(Confirmed), now))
  }

  /** The use-case. `newId` is the freshly generated identity, `now` the
      time the aggregate is built and `insertedAt` the creation time the
      store gives a new row. An invalid request fails before the store is
      touched; a valid one is saved, and the reloaded order is returned. */
  function Execute(db: Db, input: CreateOrderInput, newId: string, now: Timestamp,
                   insertedAt: Timestamp): (r: Step<Db, Order>)
    ensures r.result.Ok? <==> InputValid(input)
    ensures r.result.Err? ==> r.state == db && r.result.error.Validation?
    ensures r.result.Ok? ==> && r.result.value.status == OrderStatus(Confirmed)
                             && r.result.value.id == newId
                             && r.result.value.restaurantId == input.restaurantId
                             && r.result.value.customerId == input.customerId
    ensures r.result.Ok? ==> && |r.result.value.items| == |input.items|
                             && forall i :: 0 <= i < |input.items| ==>
                                  ItemMatchesInput(r.result.value.items[i], input.items[i])
    ensures r.result.Ok? ==> && newId in Ids(r.state.orders)
                             && |ItemsOf(r.state.items, newId)| == |input.items|
                             && forall i :: 0 <= i < |input.items| ==>
                                  ItemsOf(r.state.items, newId)[i] == ItemToRow(r.result.value.items[i])
    ensures r.result.Ok? ==> r.result.value.deliveryAddress == DeliveryAddress(
                               input.deliveryAddress.street, input.deliveryAddress.city,
                               input.deliveryAddress.number, input.deliveryAddress.postalCode,
                               GpsCoordinates(input.deliveryAddress.latitude, input.deliveryAddress.longitude))
    ensures r.result.Ok? ==> r == Save(db, BuildOrder(input, newId, now).value, insertedAt)
    ensures r.result.Ok? ==> && FindRow(r.state.orders, newId).value.customerId == input.customerId
                             && FindRow(r.state.orders, newId).value.restaurantId == input.restaurantId
                             && FindRow(r.state.orders, newId).value.status == Value(Confirmed)
    ensures r.result.Ok? ==> r.result.value.createdAt == FindRow(r.state.orders, newId).value.createdAt
    ensures r.result.Ok? && newId !in Ids(db.orders) ==> r.result.value.createdAt == insertedAt
    ensures r.result.Ok? ==> FindById(r.state, newId) == Ok(Some(r.result.value))
    ensures forall id :: id != newId ==> && FindRow(r.state.orders, id) == FindRow(db.orders, id)
                                         && ItemsOf(r.state.items, id) == ItemsOf(db.items, id)
    ensures DbValid(db) ==> DbValid(r.state)
  {
    match BuildOrder(input, newId, now)
    case Err(e) => Step(db, Err(e))
    case Ok(order) =>
      assert forall i :: 0 <= i < |order.items| ==> WithInstructions(order.items[i]) == order.items[i];
      assert DbValid(db) ==> DbValid(Save(db, order, insertedAt).state) by {
        if DbValid(db) {
          SavePreservesDbValid(db, order, insertedAt);
        }
      }
      SaveThenFindById(db, order, insertedAt);
      Save(db, order, insertedAt)
  }
}

=== FILE: delete_order.dfy ===
/** Deleting an order, which must exist. */
module DeleteOrderUseCase {
  import opened Results
  import opened OrderTables
  import opened PrismaOrderRepository

  function DoesNotExistMessage(orderId: string): string {
    "Order with ID " + orderId + " does not exist."
  }

  /** Looks the order up first, loading it in full: when it is absent, or
      its stored record does not rebuild, the call fails and the store is
      not touched; otherwise the order is deleted. */
  function Execute(db: Db, orderId: string): (r: Step<Db, ()>)
    ensures orderId !in Ids(db.orders)
            ==> r == Step(db, Err(BusinessRuleViolation(DoesNotExistMessage(orderId))))
    ensures FindById(db, orderId).Err? ==> r == Step(db, Err(FindById(db, orderId).error))
    ensures r.result.Ok? <==> FindById(db, orderId).Ok? && FindById(db, orderId).value.Some?
    ensures r.result.Err? ==> r.state == db
    ensures r.result.Ok? ==> orderId !in Ids(r.state.orders) && FindById(r.state, orderId) == Ok(None)
    ensures forall other :: other != orderId ==> && FindRow(r.state.orders, other) == FindRow(db.orders, other)
                                                 && ItemsOf(r.state.items, other) == ItemsOf(db.items, other)
    ensures DbValid(db) ==> DbValid(r.state)
  {
    match FindById(db, orderId)
    case Err(e) => Step(db, Err(e))
    case Ok(None) => Step(db, Err(BusinessRuleViolation(DoesNotExistMessage(orderId))))
    case Ok(Some(_)) =>
      assert DbValid(db) ==> DbValid(Delete(db, orderId).state) by {
        if DbValid(db) {
          DeletePreservesDbValid(db, orderId);
        }
      }
      Delete(db, orderId)
  }

  /** On a valid store every stored order loads, so the delete succeeds
      exactly when the order is stored. */
  lemma DeleteOnValidStore(db: Db, orderId: string)
    requires DbValid(db)
    ensures Execute(db, orderId).result.Ok? <==> orderId in Ids(db.orders)
  {
  }
}

=== FILE: delivery_address.dfy ===
/** Where an order is delivered. */
module AddressVO {
  import opened Results

  const AddressRequired := "Street, city, and postal code are required"

  /** A latitude/longitude pair, carried through unchecked. */
  datatype GpsCoordinates = GpsCoordinates(lat: real, lng: real)

  /** Street, city and postal code are all non-empty: the one condition an
      address must meet, wherever its fields come from. */
  predicate AddressFieldsPresent(street: string, city: string, postalCode: string) {
    street != [] && city != [] && postalCode != []
  }

  datatype DeliveryAddress = DeliveryAddress(
    street: string,
    city: string,
    number: int,
    postalCode: string,
    gpsCoordinates: GpsCoordinates)
  {
    /** Street, city and postal code are required; the house number and
        the coordinates are never looked at. */
    predicate Valid() {
      AddressFieldsPresent(street, city, postalCode)
    }
  }

  /** The checked constructor: fails when any required text field is empty,
      otherwise holds all five fields unchanged. */
  function NewDeliveryAddress(street: string, city: string, number: int, postalCode: string,
                              gps: GpsCoordinates): (r: Result<DeliveryAddress>)
    ensures r.Ok? <==> AddressFieldsPresent(street, city, postalCode)
    ensures r.Ok? ==> r.value.Valid()
    ensures r.Ok? ==> && r.value.street == street && r.value.city == city
                      && r.value.number == number && r.value.postalCode == postalCode
                      && r.value.gpsCoordinates == gps
    ensures r.Err? ==> r.error == Validation(AddressRequired)
  {
    if !AddressFieldsPresent(street, city, postalCode) then Err(Validation(AddressRequired))
    else Ok(DeliveryAddress(street, city, number, postalCode, gps))
  }

  /** Whether construction succeeds does not depend on the house number or
      on the coordinates. */
  lemma NumberAndGpsUnchecked(street: string, city: string, postalCode: string,
                              n1: int, g1: GpsCoordinates, n2: int, g2: GpsCoordinates)
    ensures NewDeliveryAddress(street, city, n1, postalCode, g1).Ok?
        <==> NewDeliveryAddress(street, city, n2, postalCode, g2).Ok?
  {
  }

  /** Rebuilding a valid address from its fields gives it back. */
  lemma AddressRoundTrip(a: DeliveryAddress)
    requires a.Valid()
    ensures NewDeliveryAddress(a.street, a.city, a.number, a.postalCode, a.gpsCoordinates) == Ok(a)
  {
  }
}

=== FILE: find_order_by_customer.dfy ===
/** Listing a customer's orders; finding none is not an error. */
module FindOrdersByCustomerIdUseCase {
  import opened Results
  import opened OrderEntity
  import opened OrderTables
  import opened PrismaOrderRepository

  /** The repository's answer, passed through unchanged: the customer's
      stored orders, reloaded one by one in storage order. */
  function Execute(db: Db, customerId: string): (r: Result<seq<Order>>)
    ensures r.Ok? <==> CustomerRecordsValid(db, customerId)
    ensures r.Err? ==> r.error.Validation?
    ensures DbValid(db) ==> r.Ok?
    ensures r.Ok? ==> |r.value| == |RowsOfCustomer(db.orders, customerId)|
    ensures r.Ok? ==> forall i :: 0 <= i < |r.value| ==>
              FromPrisma(RecordOf(db, RowsOfCustomer(db.orders, customerId)[i])) == Ok(r.value[i])
    ensures r.Ok? ==> forall i :: 0 <= i < |r.value| ==> r.value[i].customerId == customerId
  {
    FindByCustomerId(db, customerId)
  }

  /** A customer with no stored orders gets an empty list, not an error. */
  lemma NoOrdersIsEmptySuccess(db: Db, customerId: string)
    requires forall i :: 0 <= i < |db.orders| ==> db.orders[i].customerId != customerId
    ensures Execute(db, customerId) == Ok([])
  {
  }
}

=== FILE: find_order_by_id.dfy ===
/** Looking an order up by id, where absence is a business-rule violation. */
module FindOrderByIdUseCase {
  import opened Results
  import opened OrderEntity
  import opened OrderTables
  import opened PrismaOrderRepository

  function NotFoundMessage(orderId: string): string {
    "Order with ID " + orderId + " not found."
  }

  /** The order with id `orderId`, as the repository returns it. */
  function Execute(db: Db, orderId: string): (r: Result<Order>)
    ensures orderId !in Ids(db.orders) ==> r == Err(BusinessRuleViolation(NotFoundMessage(orderId)))
    ensures FindById(db, orderId).Err? ==> r == Err(FindById(db, orderId).error)
    ensures r.Err? ==> orderId !in Ids(db.orders) || FindById(db, orderId).Err?
    ensures r.Ok? ==> FindById(db, orderId) == Ok(Some(r.value)) && r.value.id == orderId
    ensures orderId in Ids(db.orders)
            ==> (r.Ok? <==> RecordValid(RecordOf(db, FindRow(db.orders, orderId).value)))
    ensures DbValid(db) ==> (r.Ok? <==> orderId in Ids(db.orders))
  {
    var found :- FindById(db, orderId);
    match found
    case None => Err(BusinessRuleViolation(NotFoundMessage(orderId)))
    case Some(o) => Ok(o)
  }
}

=== FILE: order.dfy ===
/** The order aggregate: the unit that is validated, saved and loaded as a
    whole, together with its rebuilding from a stored record. */
module OrderEntity {
  import opened Results
  import opened QuantityVO
  import opened PriceVO
  import opened InstructionsVO
  import opened AddressVO
  import opened StatusVO
  import opened OrderItemEntity
  import opened Records

  datatype Order = Order(
    id: string,
    restaurantId: string,
    customerId: string,
    deliveryAddress: DeliveryAddress,
    items: seq<OrderItem>,
    status: OrderStatus,
    createdAt: Timestamp)
  {
    /** Every value object in the aggregate keeps its invariant. The
        constructor itself checks nothing more. */
    predicate Valid() {
      && deliveryAddress.Valid()
      && forall i :: 0 <= i < |items| ==> items[i].Valid()
    }
  }

  /** Sets the status to confirmed, whatever it was; nothing else changes. */
  function Confirm(o: Order): (r: Order)
    ensures r.status == OrderStatus(Confirmed)
    ensures && r.id == o.id && r.restaurantId == o.restaurantId && r.customerId == o.customerId
            && r.deliveryAddress == o.deliveryAddress && r.items == o.items && r.createdAt == o.createdAt
    ensures o.Valid() ==> r.Valid()
  {
    o.(status := OrderStatus(Confirmed))
  }

  /** Confirming twice is the same as confirming once. */
  lemma ConfirmIdempotent(o: Order)
    ensures Confirm(Confirm(o)) == Confirm(o)
  {
  }

  // ----- Rebuilding an order from a stored record -----

  /** The stored address carries every field the address constructor requires. */
  predicate AddressPresent(a: AddressRow) {
    AddressFieldsPresent(a.street, a.city, a.postalCode)
  }

  /** A stored item row satisfies the invariants of the line's value objects. */
  predicate RowValid(row: ItemRow) {
    LineFieldsValid(row.quantity, row.price, row.specialInstructions)
  }

  /** The load-time integrity condition: a record that satisfies it can be
      rebuilt into an order, and only such a record. */
  predicate RecordValid(rec: OrderRecord) {
    && AddressPresent(rec.deliveryAddress)
    && (forall i :: 0 <= i < |rec.items| ==> RowValid(rec.items[i]))
    && IsStatusValue(rec.status)
  }

  /** `item` holds, field for field, what `row` stores; null or empty stored
      instructions become the empty text. */
  predicate ItemMatchesRow(item: OrderItem, row: ItemRow) {
    && item.productId == row.productId
    && item.quantity == Quantity(row.quantity)
    && item.price == Price(row.price, row.currency)
    && item.specialInstructions == Some(SpecialInstructions(row.specialInstructions.GetOr("")))
  }

  /** Rebuilds one line from its stored row. */
  function ItemFromRow(row: ItemRow): (r: Result<OrderItem>)
    ensures r.Ok? <==> RowValid(row)
    ensures r.Ok? ==> ItemMatchesRow(r.value, row)
    ensures r.Err? ==> r.error.Validation?
  {
    BuildItem(row.productId, row.quantity, row.price, Some(row.currency), row.specialInstructions)
  }

  /** Rebuilds the aggregate from a stored record, re-validating every
      nested value: the address first, then the lines in order, then the
      status. */
  function FromPrisma(rec: OrderRecord): (r: Result<Order>)
    ensures r.Ok? <==> RecordValid(rec)
    ensures r.Err? ==> r.error.Validation?
    ensures r.Ok? ==> r.value.Valid()
    ensures r.Ok? ==> && r.value.id == rec.id && r.value.restaurantId == rec.restaurantId
                      && r.value.customerId == rec.customerId && r.value.createdAt == rec.createdAt
    ensures r.Ok? ==> Value(r.value.status.status) == rec.status
    ensures r.Ok? ==> r.value.deliveryAddress == DeliveryAddress(
                        rec.deliveryAddress.street, rec.deliveryAddress.city, rec.deliveryAddress.number,
                        rec.deliveryAddress.postalCode,
                        GpsCoordinates(rec.deliveryAddress.latitude, rec.deliveryAddress.longitude))
    ensures r.Ok? ==> && |r.value.items| == |rec.items|
                      && forall i :: 0 <= i < |rec.items| ==> ItemMatchesRow(r.value.items[i], rec.items[i])
    ensures !AddressPresent(rec.deliveryAddress) ==> r == Err(Validation(AddressRequired))
    ensures AddressPresent(rec.deliveryAddress) && !IsStatusValue(rec.status)
            && (forall i :: 0 <= i < |rec.items| ==> RowValid(rec.items[i]))
            ==> r == Err(Validation(InvalidStatus(rec.status)))
  {
    var a := rec.deliveryAddress;
    var address :- NewDeliveryAddress(a.street, a.city, a.number, a.postalCode,
                                      GpsCoordinates(a.latitude, a.longitude));
    var items :- Traverse(rec.items, ItemFromRow);
    var status :- NewOrderStatus(rec.status);
    Ok(Order(rec.id, rec.restaurantId, rec.customerId, address, items, status, rec.createdAt))
  }
}

=== FILE: order_item.dfy ===
/** One line of an order: a product, how many of it, its unit price and
    optional instructions. A line has no identity of its own. */
module OrderItemEntity {
  import opened Results
  import opened QuantityVO
  import opened PriceVO
  import opened InstructionsVO

  datatype OrderItem = OrderItem(
    productId: string,
    quantity: Quantity,
    price: Price,
    specialInstructions: Option<SpecialInstructions>)
  {
    /** Every value object the line holds keeps its own invariant. */
    predicate Valid() {
      && quantity.Valid()
      && price.Valid()
      && (specialInstructions.Some? ==> specialInstructions.value.Valid())
    }
  }

  /** The raw fields of one line meet the invariants of its quantity, price
      and instructions; absent instructions count as the empty text. */
  predicate LineFieldsValid(quantity: int, amount: real, instructions: Option<string>) {
    && quantity >= 0
    && amount >= 0.0
    && |instructions.GetOr("")| <= MaxLength
  }

  /** Validates the raw fields of one line and assembles it, failing with
      the first violated invariant in the order quantity, price,
      instructions. Absent instructions, like empty ones, become the empty
      text, so a line built here always carries instructions. */
  function BuildItem(productId: string, quantity: int, amount: real, currency: Option<string>,
                     instructions: Option<string>): (r: Result<OrderItem>)
    ensures r.Ok? <==> LineFieldsValid(quantity, amount, instructions)
    ensures r.Ok? ==> r.value.Valid()
    ensures r.Ok? ==> && r.value.productId == productId
                      && r.value.quantity.value == quantity
                      && r.value.price.amount == amount
                      && r.value.price.currency == currency.GetOr(DefaultCurrency)
                      && r.value.specialInstructions == Some(SpecialInstructions(instructions.GetOr("")))
    ensures quantity < 0 ==> r == Err(Validation(NegativeQuantity))
    ensures quantity >= 0 && amount < 0.0 ==> r == Err(Validation(NegativePrice))
    ensures quantity >= 0 && amount >= 0.0 && |instructions.GetOr("")| > MaxLength
            ==> r == Err(Validation(TooLong))
  {
    var q :- NewQuantity(quantity);
    var p :- NewPrice(amount, currency);
    var s :- NewSpecialInstructions(instructions.GetOr(""));
    Ok(OrderItem(productId, q, p, Some(s)))
  }

  /** The line total: unit price times quantity, in the unit price's
      currency, built through the checked price constructor. */
  function GetTotal(item: OrderItem): (r: Result<Price>)
    ensures r.Ok? <==> item.price.amount * (item.quantity.value as real) >= 0.0
    ensures r.Ok? ==> && r.value.amount == item.price.amount * (item.quantity.value as real)
                      && r.value.currency == item.price.currency
  {
    NewPrice(item.price.amount * (item.quantity.value as real), Some(item.price.currency))
  }

  /** The total of a valid line never fails: a product of non-negative
      numbers is non-negative. */
  lemma TotalOfValidItem(item: OrderItem)
    requires item.Valid()
    ensures GetTotal(item).Ok?
    ensures GetTotal(item).value.Valid()
  {
  }

  /** A line of quantity zero totals zero in its own currency. */
  lemma ZeroQuantityTotal(item: OrderItem)
    requires item.quantity.value == 0
    ensures GetTotal(item) == Ok(Price(0.0, item.price.currency))
  {
  }

  /** Replaces the quantity. A negative count fails before anything is
      assigned, so the line is left as it was; otherwise only the quantity
      changes. */
  function UpdateQuantity(item: OrderItem, newQuantity: int): (r: Step<OrderItem, ()>)
    ensures r.result.Ok? <==> newQuantity >= 0
    ensures r.result.Err? ==> r.state == item && r.result.error == Validation(NegativeQuantity)
    ensures r.result.Ok? ==> && r.state.quantity.value == newQuantity
                             && r.state.productId == item.productId
                             && r.state.price == item.price
                             && r.state.specialInstructions == item.specialInstructions
    ensures item.Valid() ==> r.state.Valid()
  {
    match NewQuantity(newQuantity)
    case Ok(q) => Step(item.(quantity := q), Ok(()))
    case Err(e) => Step(item, Err(e))
  }

  /** Replaces the instructions. Over-long text fails and leaves the line
      as it was; otherwise only the instructions change. */
  function UpdateInstructions(item: OrderItem, newInstructions: string): (r: Step<OrderItem, ()>)
    ensures r.result.Ok? <==> |newInstructions| <= MaxLength
    ensures r.result.Err? ==> r.state == item && r.result.error == Validation(TooLong)
    ensures r.result.Ok? ==> && r.state.specialInstructions == Some(SpecialInstructions(newInstructions))
                             && r.state.productId == item.productId
                             && r.state.quantity == item.quantity
                             && r.state.price == item.price
    ensures item.Valid() ==> r.state.Valid()
  {
    match NewSpecialInstructions(newInstructions)
    case Ok(s) => Step(item.(specialInstructions := Some(s)), Ok(()))
    case Err(e) => Step(item, Err(e))
  }

  /** After a successful quantity update the line total follows the new
      quantity. */
  lemma TotalAfterUpdateQuantity(item: OrderItem, n: int)
    requires item.Valid() && n >= 0
    ensures GetTotal(UpdateQuantity(item, n).state)
         == Ok(Price(item.price.amount * (n as real), item.price.currency))
  {
    var updated := UpdateQuantity(item, n).state;
    TotalOfValidItem(updated);
    var t := GetTotal(updated);
    assert t.value.amount == item.price.amount * (n as real);
    assert t.value.currency == item.price.currency;
  }
}

=== FILE: order_status.dfy ===
/** The lifecycle status of an order: a closed enumeration of seven members,
    each stored and exchanged as a fixed Spanish string. */
module StatusVO {
  import opened Results

  datatype StatusEnum = Received | Confirmed | Preparing | Ready | OnTheWay | Delivered | Canceled

  /** The string each member stands for. */
  function Value(m: StatusEnum): string {
    match m
    case Received => "Recibido"
    case Confirmed => "Confirmado"
    case Preparing => "EnPreparación"
    case Ready => "Listo"
    case OnTheWay => "EnCamino"
    case Delivered => "Entregado"
    case Canceled => "Cancelado"
  }

  /** The members in declaration order, as the enumeration's value list. */
  const Members: seq<StatusEnum> := [Received, Confirmed, Preparing, Ready, OnTheWay, Delivered, Canceled]

  /** `s` is the string of some member. */
  predicate IsStatusValue(s: string) {
    exists m :: Value(m) == s
  }

  datatype OrderStatus = OrderStatus(status: StatusEnum)

  function InvalidStatus(s: string): string {
    "Invalid order status: " + s
  }

  /** The first member of `ms` whose string is `s`, if any. */
  function FindMember(ms: seq<StatusEnum>, s: string): (r: Option<StatusEnum>)
    ensures r.Some? ==> r.value in ms && Value(r.value) == s
    ensures r.None? <==> forall i :: 0 <= i < |ms| ==> Value(ms[i]) != s
  {
    if ms == [] then None
    else if Value(ms[0]) == s then Some(ms[0])
    else
      assert forall i :: 1 <= i < |ms| ==> ms[i] == ms[1..][i - 1];
      FindMember(ms[1..], s)
  }

  /** The checked constructor, given the status as a string: it succeeds
      exactly when the string is one of the seven member strings, and then
      holds that member. */
  function NewOrderStatus(s: string): (r: Result<OrderStatus>)
    ensures r.Ok? <==> IsStatusValue(s)
    ensures r.Ok? ==> Value(r.value.status) == s
    ensures r.Err? ==> r.error == Validation(InvalidStatus(s))
  {
    match FindMember(Members, s)
    case Some(m) => Ok(OrderStatus(m))
    case None =>
      UnlistedIsInvalid(s);
      Err(Validation(InvalidStatus(s)))
  }

  /** The enumeration has exactly seven members, all listed in `Members`,
      with no member listed twice. */
  lemma SevenMembers()
    ensures |Members| == 7
    ensures forall m :: m in Members
    ensures forall i, j :: 0 <= i < j < |Members| ==> Members[i] != Members[j]
  {
    forall m ensures m in Members {
      MemberListed(m);
    }
  }

  lemma MemberListed(m: StatusEnum)
    ensures m in Members
  {
    match m
    case Received => assert Members[0] == m;
    case Confirmed => assert Members[1] == m;
    case Preparing => assert Members[2] == m;
    case Ready => assert Members[3] == m;
    case OnTheWay => assert Members[4] == m;
    case Delivered => assert Members[5] == m;
    case Canceled => assert Members[6] == m;
  }

  /** A string matching no listed member is no member's string. */
  lemma UnlistedIsInvalid(s: string)
    requires forall i :: 0 <= i < |Members| ==> Value(Members[i]) != s
    ensures !IsStatusValue(s)
  {
    if IsStatusValue(s) {
      var m :| Value(m) == s;
      MemberListed(m);
    }
  }

  /** No two members share a string. */
  lemma ValueInjective(a: StatusEnum, b: StatusEnum)
    ensures Value(a) == Value(b) ==> a == b
  {
  }

  /** Every member's string is accepted and gives back that member. */
  lemma StatusRoundTrip(m: StatusEnum)
    ensures NewOrderStatus(Value(m)) == Ok(OrderStatus(m))
  {
    var r := NewOrderStatus(Value(m));
    assert IsStatusValue(Value(m));
    ValueInjective(r.value.status, m);
  }
}

=== FILE: order_tables.dfy ===
/** The relational store the persistence adapter writes to, as two tables:
    order rows keyed by a unique id, and item rows each linked to an order
    by its id. Rows are kept in storage order, which is the order queries
    return them in. */
module OrderTables {
  import opened Results
  import opened Records

  datatype OrderRow = OrderRow(
    id: string,
    customerId: string,
    restaurantId: string,
    status: string,
    deliveryAddress: AddressRow,
    createdAt: Timestamp)

  /** An item row together with the id of the order that owns it. */
  datatype ItemEntry = ItemEntry(orderId: string, row: ItemRow)

  datatype Db = Db(orders: seq<OrderRow>, items: seq<ItemEntry>)

  // ----- The order table -----

  /** The ids present in an order table. */
  function Ids(rows: seq<OrderRow>): (r: set<string>)
    ensures forall i :: 0 <= i < |rows| ==> rows[i].id in r
  {
    if rows == [] then {} else {rows[0].id} + Ids(rows[1..])
  }

  /** No id occurs twice: the primary-key constraint of the order table. */
  predicate UniqueIds(rows: seq<OrderRow>) {
    rows == [] || (rows[0].id !in Ids(rows[1..]) && UniqueIds(rows[1..]))
  }

  /** Looks a row up by its primary key. */
  function FindRow(rows: seq<OrderRow>, id: string): (r: Option<OrderRow>)
    ensures r.Some? <==> id in Ids(rows)
    ensures r.Some? ==> r.value.id == id && r.value in rows
  {
    if rows == [] then None
    else if rows[0].id == id then Some(rows[0])
    else FindRow(rows[1..], id)
  }

  /** In a table with unique ids, every row is the one its id finds. */
  lemma {:induction false} FindRowOfMember(rows: seq<OrderRow>, row: OrderRow)
    requires UniqueIds(rows) && row in rows
    ensures FindRow(rows, row.id) == Some(row)
  {
    if rows[0] != row {
      assert row in rows[1..] by {
        assert rows == [rows[0]] + rows[1..];
      }
      FindRowOfMember(rows[1..], row);
    }
  }

  /** The row an insert creates from a write payload. The payload has no
      creation time: the store supplies `insertedAt`. */
  function NewRow(data: OrderData, insertedAt: Timestamp): OrderRow {
    OrderRow(data.id, data.customerId, data.restaurantId, data.status, data.deliveryAddress, insertedAt)
  }

  /** The row an update leaves: every payload column overwritten, the
      creation time kept. */
  function UpdateRow(row: OrderRow, data: OrderData): OrderRow {
    row.(id := data.id, customerId := data.customerId, restaurantId := data.restaurantId,
         status := data.status, deliveryAddress := data.deliveryAddress)
  }

  /** The row an upsert of `data` leaves in `rows`: the payload's columns,
      with the stored creation time when the id was present and
      `insertedAt` when it was not. */
  function UpsertedRow(rows: seq<OrderRow>, data: OrderData, insertedAt: Timestamp): (r: OrderRow)
    ensures && r.id == data.id && r.customerId == data.customerId && r.restaurantId == data.restaurantId
            && r.status == data.status && r.deliveryAddress == data.deliveryAddress
    ensures FindRow(rows, data.id).Some? ==> r.createdAt == FindRow(rows, data.id).value.createdAt
    ensures FindRow(rows, data.id).None? ==> r.createdAt == insertedAt
  {
    match FindRow(rows, data.id)
    case Some(stored) => UpdateRow(stored, data)
    case None => NewRow(data, insertedAt)
  }

  /** Creates the row for `data.id` when absent (appended) and overwrites it
      in place when present. */
  function UpsertRow(rows: seq<OrderRow>, data: OrderData, insertedAt: Timestamp): (r: seq<OrderRow>)
    ensures FindRow(r, data.id) == Some(UpsertedRow(rows, data, insertedAt))
    ensures forall id :: id != data.id ==> FindRow(r, id) == FindRow(rows, id)
    ensures Ids(r) == Ids(rows) + {data.id}
    ensures UniqueIds(rows) ==> UniqueIds(r)
  {
    if rows == [] then [NewRow(data, insertedAt)]
    else if rows[0].id == data.id then [UpdateRow(rows[0], data)] + rows[1..]
    else [rows[0]] + UpsertRow(rows[1..], data, insertedAt)
  }

  /** Upserting the same payload again changes nothing. */
  lemma {:induction false} UpsertRowTwice(rows: seq<OrderRow>, data: OrderData, t1: Timestamp, t2: Timestamp)
    ensures UpsertRow(UpsertRow(rows, data, t1), data, t2) == UpsertRow(rows, data, t1)
  {
    if rows != [] && rows[0].id != data.id {
      UpsertRowTwice(rows[1..], data, t1, t2);
      var once := UpsertRow(rows, data, t1);
      assert once[1..] == UpsertRow(rows[1..], data, t1);
    }
  }

  /** Overwrites the status column of the row with id `id`, if any. */
  function SetStatus(rows: seq<OrderRow>, id: string, status: string): (r: seq<OrderRow>)
    ensures FindRow(rows, id).None? ==> FindRow(r, id).None?
    ensures FindRow(rows, id).Some? ==> FindRow(r, id) == Some(FindRow(rows, id).value.(status := status))
    ensures forall other :: other != id ==> FindRow(r, other) == FindRow(rows, other)
    ensures Ids(r) == Ids(rows)
    ensures UniqueIds(rows) ==> UniqueIds(r)
  {
    if rows == [] then []
    else if rows[0].id == id then [rows[0].(status := status)] + SetStatus(rows[1..], id, status)
    else [rows[0]] + SetStatus(rows[1..], id, status)
  }

  /** Removes every row with id `id`. */
  function RemoveRow(rows: seq<OrderRow>, id: string): (r: seq<OrderRow>)
    ensures FindRow(r, id).None?
    ensures forall other :: other != id ==> FindRow(r, other) == FindRow(rows, other)
    ensures Ids(r) == Ids(rows) - {id}
    ensures UniqueIds(rows) ==> UniqueIds(r)
  {
    if rows == [] then []
    else if rows[0].id == id then RemoveRow(rows[1..], id)
    else [rows[0]] + RemoveRow(rows[1..], id)
  }

  /** The rows of one customer, in storage order: each of the customer's
      rows as often as the table holds it, and no other row. */
  function RowsOfCustomer(rows: seq<OrderRow>, customerId: string): (r: seq<OrderRow>)
    ensures forall row :: row in r <==> row in rows && row.customerId == customerId
    ensures Ids(r) <= Ids(rows)
    ensures UniqueIds(rows) ==> UniqueIds(r)
  {
    if rows == [] then []
    else
      var tail := RowsOfCustomer(rows[1..], customerId);
      assert rows == [rows[0]] + rows[1..];
      if rows[0].customerId == customerId then
        assert ([rows[0]] + tail)[0] == rows[0] && ([rows[0]] + tail)[1..] == tail;
        [rows[0]] + tail
      else
        assert [] + tail == tail;
        tail
  }

  /** The customer's rows of a table are those of its first part followed
      by those of its second part: the query keeps the table's order. */
  lemma {:induction false} RowsOfCustomerAppend(a: seq<OrderRow>, b: seq<OrderRow>, customerId: string)
    ensures RowsOfCustomer(a + b, customerId) == RowsOfCustomer(a, customerId) + RowsOfCustomer(b, customerId)
  {
    if a == [] {
      assert a + b == b;
    } else {
      var ab := a + b;
      assert ab[0] == a[0] && ab[1..] == a[1..] + b;
      RowsOfCustomerAppend(a[1..], b, customerId);
    }
  }

  /** Each of the customer's rows is kept exactly as often as the table
      holds it, and no other row is kept. */
  lemma {:induction false} RowsOfCustomerCount(rows: seq<OrderRow>, customerId: string, row: OrderRow)
    ensures multiset(RowsOfCustomer(rows, customerId))[row]
         == if row.customerId == customerId then multiset(rows)[row] else 0
  {
    if rows != [] {
      assert rows == [rows[0]] + rows[1..];
      assert multiset(rows) == multiset([rows[0]]) + multiset(rows[1..]);
      RowsOfCustomerAppend([rows[0]], rows[1..], customerId);
      RowsOfCustomerSingle(rows[0], customerId);
      var head := RowsOfCustomer([rows[0]], customerId);
      var tail := RowsOfCustomer(rows[1..], customerId);
      assert multiset(head + tail) == multiset(head) + multiset(tail);
      RowsOfCustomerCount(rows[1..], customerId, row);
    }
  }

  /** A single row is kept exactly when it is the customer's. Together with
      `RowsOfCustomerAppend` this makes the query the order-preserving
      filter of the table. */
  lemma RowsOfCustomerSingle(row: OrderRow, customerId: string)
    ensures RowsOfCustomer([row], customerId) == if row.customerId == customerId then [row] else []
  {
    assert [row][1..] == [];
  }

  // ----- The item table -----

  /** The item rows of one order, in storage order. */
  function ItemsOf(items: seq<ItemEntry>, id: string): seq<ItemRow> {
    if items == [] then []
    else (if items[0].orderId == id then [items[0].row] else []) + ItemsOf(items[1..], id)
  }

  /** Deletes every item row of order `id`, keeping the rest in order. */
  function DeleteItemsOf(items: seq<ItemEntry>, id: string): seq<ItemEntry> {
    if items == [] then []
    else (if items[0].orderId == id then [] else [items[0]]) + DeleteItemsOf(items[1..], id)
  }

  /** The entries that link `rows` to order `id`. */
  function Entries(id: string, rows: seq<ItemRow>): (r: seq<ItemEntry>)
    ensures |r| == |rows|
    ensures forall i :: 0 <= i < |rows| ==> r[i] == ItemEntry(id, rows[i])
  {
    seq(|rows|, i requires 0 <= i < |rows| => ItemEntry(id, rows[i]))
  }

  lemma {:induction false} ItemsOfAppend(a: seq<ItemEntry>, b: seq<ItemEntry>, id: string)
    ensures ItemsOf(a + b, id) == ItemsOf(a, id) + ItemsOf(b, id)
  {
    if a == [] {
      assert a + b == b;
    } else {
      var head := if a[0].orderId == id then [a[0].row] else [];
      assert (a + b)[0] == a[0];
      assert (a + b)[1..] == a[1..] + b;
      ItemsOfAppend(a[1..], b, id);
      assert ItemsOf(a + b, id) == head + (ItemsOf(a[1..], id) + ItemsOf(b, id));
      assert ItemsOf(a, id) == head + ItemsOf(a[1..], id);
    }
  }

  lemma {:induction false} DeleteItemsOfAppend(a: seq<ItemEntry>, b: seq<ItemEntry>, id: string)
    ensures DeleteItemsOf(a + b, id) == DeleteItemsOf(a, id) + DeleteItemsOf(b, id)
  {
    if a == [] {
      assert a + b == b;
    } else {
      assert (a + b)[0] == a[0];
      assert (a + b)[1..] == a[1..] + b;
      DeleteItemsOfAppend(a[1..], b, id);
    }
  }

  /** After deleting the items of `id`, that order has none and every
      other order keeps exactly the ones it had. */
  lemma {:induction false} ItemsOfAfterDelete(items: seq<ItemEntry>, id: string, other: string)
    ensures ItemsOf(DeleteItemsOf(items, id), other) == if other == id then [] else ItemsOf(items, other)
  {
    if items != [] {
      var head := if items[0].orderId == id then [] else [items[0]];
      ItemsOfAppend(head, DeleteItemsOf(items[1..], id), other);
      ItemsOfAfterDelete(items[1..], id, other);
    }
  }

  /** The entries created for order `id` are exactly that order's items. */
  lemma {:induction false} ItemsOfEntries(id: string, rows: seq<ItemRow>, other: string)
    ensures ItemsOf(Entries(id, rows), other) == if other == id then rows else []
  {
    if rows != [] {
      assert Entries(id, rows)[1..] == Entries(id, rows[1..]);
      ItemsOfEntries(id, rows[1..], other);
    }
  }

  /** Deleting an order's items removes every entry just created for it. */
  lemma {:induction false} DeleteEntries(id: string, rows: seq<ItemRow>)
    ensures DeleteItemsOf(Entries(id, rows), id) == []
  {
    if rows != [] {
      assert Entries(id, rows)[1..] == Entries(id, rows[1..]);
      DeleteEntries(id, rows[1..]);
    }
  }

  /** Deleting the items of `id` leaves every other order's items as they were. */
  lemma DeleteItemsOfFrame(items: seq<ItemEntry>, id: string)
    ensures ItemsOf(DeleteItemsOf(items, id), id) == []
    ensures forall other :: other != id ==> ItemsOf(DeleteItemsOf(items, id), other) == ItemsOf(items, other)
  {
    forall other | true
      ensures ItemsOf(DeleteItemsOf(items, id), other) == if other == id then [] else ItemsOf(items, other)
    {
      ItemsOfAfterDelete(items, id, other);
    }
  }

  /** The item half of a save: delete every item of order `id`, then create
      `rows` for it. Afterwards the order has exactly `rows`, none of its old
      items, and every other order keeps its items. */
  function ReplaceItems(items: seq<ItemEntry>, id: string, rows: seq<ItemRow>): (r: seq<ItemEntry>)
    ensures ItemsOf(r, id) == rows
    ensures forall other :: other != id ==> ItemsOf(r, other) == ItemsOf(items, other)
  {
    var kept := DeleteItemsOf(items, id);
    var created := Entries(id, rows);
    assert forall other :: ItemsOf(kept + created, other)
                        == if other == id then rows else ItemsOf(items, other) by {
      forall other | true
        ensures ItemsOf(kept + created, other) == if other == id then rows else ItemsOf(items, other)
      {
        ItemsOfAppend(kept, created, other);
        ItemsOfAfterDelete(items, id, other);
        ItemsOfEntries(id, rows, other);
      }
    }
    kept + created
  }

  /** Replacing an order's items twice with the same rows is replacing them
      once: the rows are never doubled. */
  lemma ReplaceItemsTwice(items: seq<ItemEntry>, id: string, rows: seq<ItemRow>)
    ensures ReplaceItems(ReplaceItems(items, id, rows), id, rows) == ReplaceItems(items, id, rows)
  {
    var kept := DeleteItemsOf(items, id);
    var created := Entries(id, rows);
    DeleteItemsOfAppend(kept, created, id);
    DeleteItemsOfTwice(items, id);
    DeleteEntries(id, rows);
    assert DeleteItemsOf(kept + created, id) == kept;
  }

  /** Deleting an order's items twice is deleting them once. */
  lemma {:induction false} DeleteItemsOfTwice(items: seq<ItemEntry>, id: string)
    ensures DeleteItemsOf(DeleteItemsOf(items, id), id) == DeleteItemsOf(items, id)
  {
    if items != [] {
      var head := if items[0].orderId == id then [] else [items[0]];
      DeleteItemsOfAppend(head, DeleteItemsOf(items[1..], id), id);
      DeleteItemsOfTwice(items[1..], id);
    }
  }
}

=== FILE: price.dfy ===
/** A unit or line price: a non-negative amount in some currency. */
module PriceVO {
  import opened Results

  const NegativePrice := "Price cannot be negative"

  /** The currency a price gets when the caller does not give one. */
  const DefaultCurrency := "mxn"

  datatype Price = Price(amount: real, currency: string) {

    /** The invariant every constructed price keeps: zero is allowed and
        the currency is not checked. */
    predicate Valid() {
      amount >= 0.0
    }
  }

  /** The checked constructor. An omitted currency (`None`) becomes the
      default one; a given currency is kept as it is, even if empty. */
  function NewPrice(amount: real, currency: Option<string>): (r: Result<Price>)
    ensures r.Ok? <==> amount >= 0.0
    ensures r.Ok? ==> r.value.Valid() && r.value.amount == amount
    ensures r.Ok? && currency.Some? ==> r.value.currency == currency.value
    ensures r.Ok? && currency.None? ==> r.value.currency == DefaultCurrency
    ensures r.Err? ==> r.error == Validation(NegativePrice)
  {
    if amount < 0.0 then Err(Validation(NegativePrice))
    else Ok(Price(amount, currency.GetOr(DefaultCurrency)))
  }

  /** Rebuilding a valid price from its amount and currency gives it back. */
  lemma PriceRoundTrip(p: Price)
    requires p.Valid()
    ensures NewPrice(p.amount, Some(p.currency)) == Ok(p)
  {
  }
}

=== FILE: prisma_order_repository.dfy ===
/** The persistence adapter behind the order repository contract, over the
    two-table store of `OrderTables`. Each operation is one atomic step:
    it returns the store after the call and what the call returned.

    The contract's signatures show in the result types: `Save` returns the
    reloaded order, `FindById` returns `None` for absence rather than
    failing, `FindByCustomerId` returns a possibly empty sequence, and
    `UpdateStatus` and `Delete` return no value. A stored record that fails
    re-validation while being rebuilt makes a read fail. */
module PrismaOrderRepository {
  import opened Results
  import opened InstructionsVO
  import opened StatusVO
  import opened OrderItemEntity
  import opened Records
  import opened OrderEntity
  import opened OrderTables

  // ----- Mapping between the aggregate and its persisted shape -----

  /** One line as an item row; absent instructions are written as null. */
  function ItemToRow(item: OrderItem): (r: ItemRow)
    ensures && r.productId == item.productId && r.quantity == item.quantity.value
            && r.price == item.price.amount && r.currency == item.price.currency
    ensures r.specialInstructions.Some? <==> item.specialInstructions.Some?
    ensures item.specialInstructions.Some? ==> r.specialInstructions.value == item.specialInstructions.value.text
  {
    var text := match item.specialInstructions
      case Some(s) => Some(s.text)
      case None => None;
    ItemRow(item.productId, item.quantity.value, item.price.amount, item.price.currency, text)
  }

  /** The write payload of an order: the status as its enumeration string,
      the coordinates flattened into latitude and longitude, the lines as
      item rows in order, and no creation time. */
  function ToPrisma(o: Order): (r: OrderData)
    ensures r.id == o.id && r.customerId == o.customerId && r.restaurantId == o.restaurantId
    ensures r.status == Value(o.status.status)
    ensures r.deliveryAddress == AddressRow(
              o.deliveryAddress.street, o.deliveryAddress.number, o.deliveryAddress.city,
              o.deliveryAddress.postalCode,
              o.deliveryAddress.gpsCoordinates.lat, o.deliveryAddress.gpsCoordinates.lng)
    ensures |r.items| == |o.items|
    ensures forall i :: 0 <= i < |o.items| ==> r.items[i] == ItemToRow(o.items[i])
  {
    var a := o.deliveryAddress;
    OrderData(
      o.id, o.customerId, o.restaurantId, Value(o.status.status),
      AddressRow(a.street, a.number, a.city, a.postalCode, a.gpsCoordinates.lat, a.gpsCoordinates.lng),
      seq(|o.items|, i requires 0 <= i < |o.items| => ItemToRow(o.items[i])))
  }

  /** The record a payload reads back as once the store has given it a
      creation time. */
  function RecordFromData(data: OrderData, createdAt: Timestamp): OrderRecord {
    OrderRecord(data.id, data.customerId, data.restaurantId, data.status, data.deliveryAddress, createdAt, data.items)
  }

  /** A line as it comes back from the store: absent instructions read back
      as the empty text. */
  function WithInstructions(item: OrderItem): OrderItem {
    item.(specialInstructions := Some(item.specialInstructions.GetOr(SpecialInstructions(""))))
  }

  /** An order as it comes back from the store, with creation time `createdAt`. */
  function Reloaded(o: Order, createdAt: Timestamp): (r: Order) {
    o.(items := seq(|o.items|, i requires 0 <= i < |o.items| => WithInstructions(o.items[i])),
       createdAt := createdAt)
  }

  /** An order whose lines all carry instructions reloads as itself, up to
      its creation time. */
  lemma ReloadedWithInstructions(o: Order)
    requires forall i :: 0 <= i < |o.items| ==> o.items[i].specialInstructions.Some?
    ensures Reloaded(o, o.createdAt) == o
  {
    assert Reloaded(o, o.createdAt).items == o.items;
  }

  /** Writing a valid order and rebuilding it from what was written gives
      the order back field for field, except that absent instructions come
      back as the empty text and the creation time is the stored one. */
  lemma ToPrismaRoundTrip(o: Order, createdAt: Timestamp)
    requires o.Valid()
    ensures FromPrisma(RecordFromData(ToPrisma(o), createdAt)) == Ok(Reloaded(o, createdAt))
  {
    var rec := RecordFromData(ToPrisma(o), createdAt);
    StatusRoundTrip(o.status.status);
    assert RecordValid(rec) by {
      forall i | 0 <= i < |rec.items| ensures RowValid(rec.items[i]) {
        assert o.items[i].Valid();
      }
    }
    var r := FromPrisma(rec).value;
    var expected := Reloaded(o, createdAt);
    assert r.items == expected.items by {
      forall i | 0 <= i < |o.items| ensures r.items[i] == expected.items[i] {
        assert ItemMatchesRow(r.items[i], rec.items[i]);
      }
    }
    assert r.status == o.status by {
      ValueInjective(r.status.status, o.status.status);
    }
  }

  /** An item row as it would be written again after a load: null
      instructions become the empty text. */
  function RowReloaded(row: ItemRow): ItemRow {
    row.(specialInstructions := Some(row.specialInstructions.GetOr("")))
  }

  /** Rebuilding a valid record and writing the result again gives back the
      record's columns field for field, except that null instructions are
      written as the empty text. */
  lemma FromPrismaRoundTrip(rec: OrderRecord)
    requires RecordValid(rec)
    ensures FromPrisma(rec).Ok?
    ensures ToPrisma(FromPrisma(rec).value)
         == OrderData(rec.id, rec.customerId, rec.restaurantId, rec.status, rec.deliveryAddress,
                      seq(|rec.items|, i requires 0 <= i < |rec.items| => RowReloaded(rec.items[i])))
    ensures FromPrisma(rec).value.createdAt == rec.createdAt
  {
    var o := FromPrisma(rec).value;
    assert forall i :: 0 <= i < |rec.items| ==> ItemMatchesRow(o.items[i], rec.items[i]);
  }

  // ----- The store and its integrity -----

  /** The stored record of `row`, with the item rows linked to it. */
  function RecordOf(db: Db, row: OrderRow): OrderRecord {
    OrderRecord(row.id, row.customerId, row.restaurantId, row.status, row.deliveryAddress,
                row.createdAt, ItemsOf(db.items, row.id))
  }

  /** The store holds unique ids and only records that rebuild into orders. */
  predicate DbValid(db: Db) {
    && UniqueIds(db.orders)
    && forall id :: id in Ids(db.orders) ==> RecordValid(RecordOf(db, FindRow(db.orders, id).value))
  }

  // ----- The repository operations -----

  /** Saves an order in one transaction: deletes all of its stored items,
      then upserts its row with its current items created afresh, and
      returns the order rebuilt from the upserted row. `insertedAt` is the
      creation time the store gives a newly inserted row. */
  function Save(db: Db, o: Order, insertedAt: Timestamp): (r: Step<Db, Order>)
    ensures ItemsOf(r.state.items, o.id) == ToPrisma(o).items
    ensures forall id :: id != o.id ==> ItemsOf(r.state.items, id) == ItemsOf(db.items, id)
    ensures forall id :: id != o.id ==> FindRow(r.state.orders, id) == FindRow(db.orders, id)
    ensures FindRow(r.state.orders, o.id) == Some(UpsertedRow(db.orders, ToPrisma(o), insertedAt))
    ensures UniqueIds(db.orders) ==> UniqueIds(r.state.orders)
    ensures o.Valid() ==> r.result == Ok(Reloaded(o, UpsertedRow(db.orders, ToPrisma(o), insertedAt).createdAt))
  {
    var data := ToPrisma(o);
    var saved := UpsertedRow(db.orders, data, insertedAt);
    var after := Db(UpsertRow(db.orders, data, insertedAt), ReplaceItems(db.items, o.id, data.items));
    assert RecordOf(after, saved) == RecordFromData(data, saved.createdAt);
    assert o.Valid() ==> FromPrisma(RecordOf(after, saved)) == Ok(Reloaded(o, saved.createdAt)) by {
      if o.Valid() {
        ToPrismaRoundTrip(o, saved.createdAt);
      }
    }
    Step(after, FromPrisma(RecordOf(after, saved)))
  }

  /** Looks an order up by id: `None` when absent, otherwise the order
      rebuilt from its stored record. */
  function FindById(db: Db, id: string): (r: Result<Option<Order>>)
    ensures id !in Ids(db.orders) ==> r == Ok(None)
    ensures id in Ids(db.orders) && r.Ok? ==> r.value.Some?
    ensures r.Ok? && r.value.Some? ==> && r.value.value.id == id
                                       && FromPrisma(RecordOf(db, FindRow(db.orders, id).value)) == Ok(r.value.value)
    ensures id in Ids(db.orders) ==> (r.Ok? <==> RecordValid(RecordOf(db, FindRow(db.orders, id).value)))
    ensures r.Err? ==> r.error.Validation?
    ensures DbValid(db) ==> r.Ok?
  {
    match FindRow(db.orders, id)
    case None => Ok(None)
    case Some(row) =>
      var o :- FromPrisma(RecordOf(db, row));
      Ok(Some(o))
  }

  /** Every stored record of the customer rebuilds into an order; the
      records of other customers play no part. */
  predicate CustomerRecordsValid(db: Db, customerId: string) {
    forall i :: 0 <= i < |db.orders| && db.orders[i].customerId == customerId ==>
      RecordValid(RecordOf(db, db.orders[i]))
  }

  /** The customer's records are valid exactly when every row the customer
      filter returns holds a valid record. */
  lemma CustomerRecordsValidRows(db: Db, customerId: string)
    ensures CustomerRecordsValid(db, customerId)
        <==> forall i :: 0 <= i < |RowsOfCustomer(db.orders, customerId)| ==>
               RecordValid(RecordOf(db, RowsOfCustomer(db.orders, customerId)[i]))
  {
    var rows := RowsOfCustomer(db.orders, customerId);
    var rowsValid := forall i :: 0 <= i < |rows| ==> RecordValid(RecordOf(db, rows[i]));
    if CustomerRecordsValid(db, customerId) {
      forall i | 0 <= i < |rows| ensures RecordValid(RecordOf(db, rows[i])) {
        assert rows[i] in rows;
        var j :| 0 <= j < |db.orders| && db.orders[j] == rows[i];
      }
      assert rowsValid;
    }
    if rowsValid {
      forall i | 0 <= i < |db.orders| && db.orders[i].customerId == customerId
        ensures RecordValid(RecordOf(db, db.orders[i]))
      {
        assert db.orders[i] in db.orders;
        var j :| 0 <= j < |rows| && rows[j] == db.orders[i];
      }
      assert CustomerRecordsValid(db, customerId);
    }
  }

  /** The orders of one customer, in storage order. The lookup fails exactly
      when one of the customer's own records does not rebuild. */
  function FindByCustomerId(db: Db, customerId: string): (r: Result<seq<Order>>)
    ensures r.Ok? <==> CustomerRecordsValid(db, customerId)
    ensures r.Err? ==> r.error.Validation?
    ensures DbValid(db) ==> r.Ok?
    ensures r.Ok? ==> |r.value| == |RowsOfCustomer(db.orders, customerId)|
    ensures r.Ok? ==> forall i :: 0 <= i < |r.value| ==> r.value[i].customerId == customerId
    ensures r.Ok? ==> forall i :: 0 <= i < |r.value| ==>
              FromPrisma(RecordOf(db, RowsOfCustomer(db.orders, customerId)[i])) == Ok(r.value[i])
  {
    var rows := RowsOfCustomer(db.orders, customerId);
    assert DbValid(db) ==> forall i :: 0 <= i < |rows| ==> RecordValid(RecordOf(db, rows[i])) by {
      if DbValid(db) {
        forall i | 0 <= i < |rows| ensures RecordValid(RecordOf(db, rows[i])) {
          assert rows[i] in rows;
          FindRowOfMember(db.orders, rows[i]);
        }
      }
    }
    CustomerRecordsValidRows(db, customerId);
    Traverse(rows, row => FromPrisma(RecordOf(db, row)))
  }

  /** Writes the status column of order `id` and nothing else. The store
      refuses an update of a missing row. */
  function UpdateStatus(db: Db, id: string, status: OrderStatus): (r: Step<Db, ()>)
    ensures r.result.Ok? <==> id in Ids(db.orders)
    ensures r.result.Err? ==> r.state == db && r.result.error == NotFound(id)
    ensures r.state.items == db.items
    ensures r.result.Ok? ==> FindRow(r.state.orders, id)
                             == Some(FindRow(db.orders, id).value.(status := Value(status.status)))
    ensures forall other :: other != id ==> FindRow(r.state.orders, other) == FindRow(db.orders, other)
    ensures UniqueIds(db.orders) ==> UniqueIds(r.state.orders)
  {
    if id !in Ids(db.orders) then Step(db, Err(NotFound(id)))
    else Step(db.(orders := SetStatus(db.orders, id, Value(status.status))), Ok(()))
  }

  /** Deletes order `id`; its items go with it. The store refuses a delete
      of a missing row. */
  function Delete(db: Db, id: string): (r: Step<Db, ()>)
    ensures r.result.Ok? <==> id in Ids(db.orders)
    ensures r.result.Err? ==> r.state == db && r.result.error == NotFound(id)
    ensures id !in Ids(r.state.orders)
    ensures forall other :: other != id ==> FindRow(r.state.orders, other) == FindRow(db.orders, other)
    ensures forall other :: other != id ==> ItemsOf(r.state.items, other) == ItemsOf(db.items, other)
    ensures UniqueIds(db.orders) ==> UniqueIds(r.state.orders)
  {
    if id !in Ids(db.orders) then Step(db, Err(NotFound(id)))
    else
      DeleteItemsOfFrame(db.items, id);
      Step(Db(RemoveRow(db.orders, id), DeleteItemsOf(db.items, id)), Ok(()))
  }

  // ----- Properties relating the operations -----

  /** Saving the same order twice in a row leaves the store, and returns
      the order, exactly as saving it once: items are replaced, never
      doubled, and the creation time is kept. */
  lemma SaveIdempotent(db: Db, o: Order, t1: Timestamp, t2: Timestamp)
    ensures Save(Save(db, o, t1).state, o, t2) == Save(db, o, t1)
  {
    var data := ToPrisma(o);
    var once := Save(db, o, t1);
    UpsertRowTwice(db.orders, data, t1, t2);
    ReplaceItemsTwice(db.items, o.id, data.items);
    assert Save(once.state, o, t2).state == once.state;
    assert UpsertedRow(once.state.orders, data, t2) == UpsertedRow(db.orders, data, t1);
  }

  /** A reload after a save finds the order the save returned. */
  lemma SaveThenFindById(db: Db, o: Order, t: Timestamp)
    requires o.Valid()
    ensures FindById(Save(db, o, t).state, o.id) == Ok(Some(Save(db, o, t).result.value))
  {
  }

  /** Saving a valid order keeps the store valid. */
  lemma SavePreservesDbValid(db: Db, o: Order, t: Timestamp)
    requires DbValid(db) && o.Valid()
    ensures DbValid(Save(db, o, t).state)
  {
    var after := Save(db, o, t).state;
    forall id | id in Ids(after.orders)
      ensures RecordValid(RecordOf(after, FindRow(after.orders, id).value))
    {
      if id != o.id {
        assert RecordOf(after, FindRow(after.orders, id).value) == RecordOf(db, FindRow(db.orders, id).value);
      }
    }
  }

  /** Every stored order of the customer is among the orders found for it. */
  lemma {:induction false} FindByCustomerIdCovers(db: Db, customerId: string, row: OrderRow)
    requires FindByCustomerId(db, customerId).Ok?
    requires row in db.orders && row.customerId == customerId
    ensures exists i :: 0 <= i < |FindByCustomerId(db, customerId).value|
                        && FindByCustomerId(db, customerId).value[i].id == row.id
  {
    var rows := RowsOfCustomer(db.orders, customerId);
    var found := FindByCustomerId(db, customerId).value;
    assert row in rows;
    var i :| 0 <= i < |rows| && rows[i] == row;
    assert FromPrisma(RecordOf(db, rows[i])) == Ok(found[i]);
  }

  /** Changing the status keeps the store valid. */
  lemma UpdateStatusPreservesDbValid(db: Db, id: string, status: OrderStatus)
    requires DbValid(db)
    ensures DbValid(UpdateStatus(db, id, status).state)
  {
    var after := UpdateStatus(db, id, status).state;
    forall other | other in Ids(after.orders)
      ensures RecordValid(RecordOf(after, FindRow(after.orders, other).value))
    {
      if other == id {
        assert IsStatusValue(Value(status.status));
      } else {
        assert RecordOf(after, FindRow(after.orders, other).value) == RecordOf(db, FindRow(db.orders, other).value);
      }
    }
  }

  /** Rebuilding a record whose status column was overwritten with a
      member's string gives the old order with only its status replaced. */
  lemma FromPrismaWithStatus(rec: OrderRecord, m: StatusEnum)
    requires RecordValid(rec)
    ensures FromPrisma(rec.(status := Value(m))) == Ok(FromPrisma(rec).value.(status := OrderStatus(m)))
  {
    StatusRoundTrip(m);
  }

  /** After a successful status update a reload shows the new status on the
      otherwise unchanged order, whatever the old status was. */
  lemma UpdateStatusThenFindById(db: Db, id: string, status: OrderStatus)
    requires DbValid(db) && id in Ids(db.orders)
    ensures FindById(UpdateStatus(db, id, status).state, id)
         == Ok(Some(FindById(db, id).value.value.(status := status)))
  {
    var row := FindRow(db.orders, id).value;
    var after := UpdateStatus(db, id, status).state;
    assert RecordOf(after, FindRow(after.orders, id).value) == RecordOf(db, row).(status := Value(status.status));
    FromPrismaWithStatus(RecordOf(db, row), status.status);
  }

  /** Deleting an order keeps the store valid. */
  lemma DeletePreservesDbValid(db: Db, id: string)
    requires DbValid(db)
    ensures DbValid(Delete(db, id).state)
  {
    var after := Delete(db, id).state;
    forall other | other in Ids(after.orders)
      ensures RecordValid(RecordOf(after, FindRow(after.orders, other).value))
    {
      assert other != id;
      assert RecordOf(after, FindRow(after.orders, other).value) == RecordOf(db, FindRow(db.orders, other).value);
    }
  }

  /** After a delete, a lookup of the id finds nothing. */
  lemma DeleteThenFindById(db: Db, id: string)
    ensures FindById(Delete(db, id).state, id) == Ok(None)
  {
  }
}

=== FILE: quantity.dfy ===
/** The number of units of one product in an order line. */
module QuantityVO {
  import opened Results

  const NegativeQuantity := "Quantity cannot be negative"

  datatype Quantity = Quantity(value: int) {

    /** The invariant every constructed quantity keeps: zero is allowed. */
    predicate Valid() {
      value >= 0
    }
  }

  /** The checked constructor: a negative count fails, anything else is
      held unchanged. */
  function NewQuantity(value: int): (r: Result<Quantity>)
    ensures r.Ok? <==> value >= 0
    ensures r.Ok? ==> r.value.Valid() && r.value.value == value
    ensures r.Err? ==> r.error == Validation(NegativeQuantity)
  {
    if value < 0 then Err(Validation(NegativeQuantity)) else Ok(Quantity(value))
  }

  /** Rebuilding a valid quantity from the value it holds gives it back. */
  lemma QuantityRoundTrip(q: Quantity)
    requires q.Valid()
    ensures NewQuantity(q.value) == Ok(q)
  {
  }
}

=== FILE: records.dfy ===
/** The persisted shape of an order: an order row with its delivery address
    embedded, and item rows linked to it by the order's id. */
module Records {
  import opened Results

  /** A point in time, as the store keeps it. */
  type Timestamp = int

  /** The embedded address: the coordinates are flattened into two columns. */
  datatype AddressRow = AddressRow(
    street: string,
    number: int,
    city: string,
    postalCode: string,
    latitude: real,
    longitude: real)

  /** One stored order line; absent instructions are stored as null (`None`). */
  datatype ItemRow = ItemRow(
    productId: string,
    quantity: int,
    price: real,
    currency: string,
    specialInstructions: Option<string>)

  /** The payload written when an order is saved: every column of the order
      row except its creation time, together with the item rows to create. */
  datatype OrderData = OrderData(
    id: string,
    customerId: string,
    restaurantId: string,
    status: string,
    deliveryAddress: AddressRow,
    items: seq<ItemRow>)

  /** A stored order as read back with its item rows included. */
  datatype OrderRecord = OrderRecord(
    id: string,
    customerId: string,
    restaurantId: string,
    status: string,
    deliveryAddress: AddressRow,
    createdAt: Timestamp,
    items: seq<ItemRow>)
}

=== FILE: results.dfy ===
/** Success and failure values shared by every layer of the order service.

    The source signals failure by throwing: value objects throw a plain
    error when their invariant is violated, the use-cases throw a
    business-rule violation when an order they presuppose is absent, and
    the persistence client throws when an update or delete addresses a row
    that does not exist. Each of these becomes one constructor of `Error`,
    and every operation that may throw returns a `Result`.
 */
module Results {

  datatype Option<+T> = None | Some(value: T) {

    /** The held value, or `default` when there is none. */
    function GetOr(default: T): T {
      match this
      case Some(v) => v
      case None => default
    }
  }

  datatype Error =
    | Validation(message: string)              // a value object's invariant was violated
    | BusinessRuleViolation(message: string)   // a use-case's existence requirement failed
    | NotFound(id: string)                     // the store has no row with this id

  datatype Result<+T> = Ok(value: T) | Err(error: Error) {

    predicate IsFailure() {
      Err?
    }

    function PropagateFailure<U>(): Result<U>
      requires Err?
    {
      Err(error)
    }

    function Extract(): T
      requires Ok?
    {
      value
    }
  }

  /** The outcome of an operation that changes some state `S`: the state
      after the call together with what the call returned. */
  datatype Step<+S, +T> = Step(state: S, result: Result<T>)

  /** `i` is the position of the first element of `xs` on which `f` fails. */
  predicate FirstFailureAt<A, B>(xs: seq<A>, f: A -> Result<B>, i: int)
  {
    && 0 <= i < |xs|
    && f(xs[i]).Err?
    && forall j :: 0 <= j < i ==> f(xs[j]).Ok?
  }

  /** Applies `f` to every element in order and collects the results,
      stopping at the first failure, as an array `map` whose callback may
      throw does. */
  function Traverse<A, B>(xs: seq<A>, f: A -> Result<B>): (r: Result<seq<B>>)
    ensures r.Ok? <==> forall i :: 0 <= i < |xs| ==> f(xs[i]).Ok?
    ensures r.Ok? ==> |r.value| == |xs|
    ensures r.Ok? ==> forall i :: 0 <= i < |xs| ==> f(xs[i]).Ok? && r.value[i] == f(xs[i]).value
    ensures r.Err? ==> exists i :: FirstFailureAt(xs, f, i) && r.error == f(xs[i]).error
  {
    if xs == [] then Ok([])
    else
      var head :- f(xs[0]);
      var tail :- Traverse(xs[1..], f);
      assert forall i :: 1 <= i < |xs| ==> xs[i] == xs[1..][i - 1];
      Ok([head] + tail)
  }
}

=== FILE: scenarios.dfy ===
/** End-to-end behaviour of the use-cases on concrete requests. */
module OrderScenarios {
  import opened Results
  import opened QuantityVO
  import opened PriceVO
  import opened InstructionsVO
  import opened StatusVO
  import opened OrderItemEntity
  import opened Records
  import opened OrderTables
  import opened PrismaOrderRepository
  import CreateOrderUseCase
  import FindOrderByIdUseCase

  /** A request for two units of product "p1" at 10 mxn each. */
  function TwoOfP1(): CreateOrderUseCase.CreateOrderInput {
    CreateOrderUseCase.CreateOrderInput(
      "c1", "r1",
      CreateOrderUseCase.AddressInput("Reforma", 222, "CDMX", "06600", 19.43, -99.16),
      [CreateOrderUseCase.ItemInput("p1", 2, CreateOrderUseCase.PriceInput(10.0, Some("mxn")), None)])
  }

  /** Creating that order in a valid store succeeds with status confirmed,
      a line total of 20 mxn and empty instructions, and a lookup by the
      new id returns the very same order. */
  lemma CreateThenFind(db: Db, newId: string, now: Timestamp, insertedAt: Timestamp)
    requires DbValid(db)
    ensures CreateOrderUseCase.Execute(db, TwoOfP1(), newId, now, insertedAt).result.Ok?
    ensures var created := CreateOrderUseCase.Execute(db, TwoOfP1(), newId, now, insertedAt);
            && created.result.value.status == OrderStatus(Confirmed)
            && |created.result.value.items| == 1
            && GetTotal(created.result.value.items[0]) == Ok(Price(20.0, "mxn"))
            && created.result.value.items[0].specialInstructions == Some(SpecialInstructions(""))
            && FindOrderByIdUseCase.Execute(created.state, newId) == Ok(created.result.value)
  {
    var input := TwoOfP1();
    assert CreateOrderUseCase.InputValid(input) by {
      assert CreateOrderUseCase.ItemInputValid(input.items[0]);
    }
    var created := CreateOrderUseCase.Execute(db, input, newId, now, insertedAt);
    var order := CreateOrderUseCase.BuildOrder(input, newId, now).value;
    assert created == Save(db, order, insertedAt);
    var item := created.result.value.items[0];
    assert CreateOrderUseCase.ItemMatchesInput(item, input.items[0]);
    assert item.quantity == Quantity(2) && item.price == Price(10.0, "mxn");
    SaveThenFindById(db, order, insertedAt);
  }
}

=== FILE: special_instructions.dfy ===
/** Free-text instructions a customer attaches to an order line. */
module InstructionsVO {
  import opened Results

  /** The longest text accepted, in characters. */
  const MaxLength := 500

  const TooLong := "Instructions too long (500 characters max)"

  datatype SpecialInstructions = SpecialInstructions(text: string) {

    predicate Valid() {
      |text| <= MaxLength
    }
  }

  /** The checked constructor: text longer than the limit fails; the empty
      text and text of exactly the limit are accepted and held unchanged. */
  function NewSpecialInstructions(text: string): (r: Result<SpecialInstructions>)
    ensures r.Ok? <==> |text| <= MaxLength
    ensures r.Ok? ==> r.value.Valid() && r.value.text == text
    ensures r.Err? ==> r.error == Validation(TooLong)
  {
    if |text| > MaxLength then Err(Validation(TooLong)) else Ok(SpecialInstructions(text))
  }

  /** Rebuilding valid instructions from their text gives them back. */
  lemma InstructionsRoundTrip(s: SpecialInstructions)
    requires s.Valid()
    ensures NewSpecialInstructions(s.text) == Ok(s)
  {
  }
}

=== FILE: update_order_status.dfy ===
/** Changing an order's status. There is no existence check of its own and
    no transition guard: any status may replace any other. */
module UpdateOrderStatusUseCase {
  import opened Results
  import opened StatusVO
  import opened OrderTables
  import opened PrismaOrderRepository
  import FindOrderByIdUseCase

  /** Delegates straight to the repository's status write. */
  function Execute(db: Db, orderId: string, status: OrderStatus): (r: Step<Db, ()>)
    ensures r == UpdateStatus(db, orderId, status)
    ensures r.result.Ok? <==> orderId in Ids(db.orders)
    ensures r.result.Err? ==> r.result.error == NotFound(orderId) && r.state == db
  {
    UpdateStatus(db, orderId, status)
  }

  /** Whatever status an order has, a status update followed by a lookup
      shows the new status on the otherwise unchanged order. */
  lemma NoTransitionGuard(db: Db, orderId: string, status: OrderStatus)
    requires DbValid(db) && orderId in Ids(db.orders)
    ensures FindOrderByIdUseCase.Execute(Execute(db, orderId, status).state, orderId)
         == Ok(FindOrderByIdUseCase.Execute(db, orderId).value.(status := status))
  {
    UpdateStatusThenFindById(db, orderId, status);
    UpdateStatusPreservesDbValid(db, orderId, status);
  }

  /** In particular a delivered order can be sent back to received. */
  lemma DeliveredBackToReceived(db: Db, orderId: string)
    requires DbValid(db) && orderId in Ids(db.orders)
    requires FindRow(db.orders, orderId).value.status == Value(Delivered)
    ensures FindOrderByIdUseCase.Execute(db, orderId).Ok?
    ensures FindOrderByIdUseCase.Execute(db, orderId).value.status == OrderStatus(Delivered)
    ensures FindOrderByIdUseCase.Execute(Execute(db, orderId, OrderStatus(Received)).state, orderId).Ok?
    ensures FindOrderByIdUseCase.Execute(Execute(db, orderId, OrderStatus(Received)).state, orderId).value.status
         == OrderStatus(Received)
  {
    var before := FindOrderByIdUseCase.Execute(db, orderId).value;
    ValueInjective(before.status.status, Delivered);
    NoTransitionGuard(db, orderId, OrderStatus(Received));
  }
}
